=== FILE: README.md ===
# Juice WRLD API client (Go): a Dafny model of its decision logic

The Go client wraps a music-discography REST API. Most of it is HTTP and JSON
plumbing. This project models the few pure decision procedures inside it and
proves their properties:

- **Transport** (`transport.dfy`): how the request helper `do` maps an HTTP
  reply to an outcome. 429, 404 and 401 become the rate-limit, not-found and
  authentication errors. Any other status of 400 or more becomes a generic API
  error. Below 400, the body is either discarded or decoded into the caller's
  output.
- **Errors** (`errors.go`, `errors.dfy`): `APIError.Error()`, which is nil-safe
  and special-cases status 0, and the four typed errors that embed an
  `APIError`.
- **FlexibleTime** (`flexible_time.dfy`): tolerant timestamp decoding. Quotes
  are trimmed and null or empty input is skipped. Seven layouts are tried in
  order and the first that parses wins. Decoding never fails. Encoding always
  writes RFC 3339 (section 5.6 of RFC 3339).
- **Playback** (`playback.dfy`): `PlayJuiceWRLDSong`, which cuts the reported
  file URL at `/media/`, fills four path templates and probes them in order.
  The first 200/206 answer wins, and if none answers it falls back to an
  unverified URL. Also `StreamAudioFile`, which classifies a single range probe.
- **Search** (`search.dfy`): the page number `offset/limit + 1` under Go's
  truncating division, comma-joining of tags, and the optional query keys of
  `SearchSongs`, `GetSongs` and `GetSongsByCategory`. Also the "results" check
  in `GetSongs`.

Shared pieces: `wrappers.dfy` (Option/Result), `values.dfy` (decoded JSON
values, map lookup and `%v` printing), `decimal.dfy` (`%d` formatting and its
inverse).

Everything the code hands to a foreign library is a function parameter
(oracle):

- `time.Parse` is `parse(layout, text)`.
- `Time.Format` is `format(layout, t)`.
- `url.QueryEscape` is `escape`.
- A range probe is `probe(url)`, which returns a reply or a transport error.
- `%v` of a number, array or object is `showOther`. It receives the whole value, which keeps its JSON literal or text.
- `json.Marshal` of a reply map is `encode`.
- The JSON decoder is `decode`.

The metadata fetch that starts `PlayJuiceWRLDSong` is a parameter too: its
already classified result.

Two behaviours differ from what a reader of the code would expect:

- The transport treats every status below 400 as success, not only 2xx: the
  code tests only `>= 400` (client.go:92-102), and the model follows it.
- The code has an "invalid_url" branch for a file URL without `/media/`
  (client.go:271-273). The scan in front of it (client.go:265-266) slices one
  byte past the end and panics for every such URL of six or more bytes (see Findings), so
  that branch is reached only by shorter URLs. `Playback.ScanFromAsWritten`
  models the scan as written. `Playback.Resolve` and `Playback.PlaySong` use
  the corrected scan, which yields "invalid_url" for every URL without the
  marker.

A Go string is modelled as its bytes, one `char` per byte. Lengths and slice
positions in the model are therefore byte counts. Every delimiter the code
looks for (`/media/`, `"`, `,`) is ASCII.

## Model

| member | source | states |
|---|---|---|
| Errors.ErrorText | errors.go:12-20 | A nil error prints as the empty string. Status 0 prints the message verbatim. Otherwise the text starts with `api error: ` and ends with the message. |
| Errors.ErrorTextRoundTrip | errors.go:16-19 | For a non-zero status the text is lossless: parsing it gives back exactly the status and the message. |
| Errors.Wrap | errors.go:22-25 | Every typed error embeds exactly the given APIError unchanged, and its kind can be read back from it. |
| Decimal.FormatIntRoundTrip | errors.go:19 | The `%d` rendering of any integer, negative ones included, reads back as the same integer. |
| Transport.Classify | client.go:80-102 | Status 429, 404 and 401 each map (if and only if) to the rate-limit, not-found and authentication error. An API error occurs if and only if the status is at least 400. It carries the status and raw body and is never a validation error. Below 400 with no output the body is discarded. With an output the decoder's result or its decode failure is returned. |
| Transport.Do | client.go:74-102 | A network error is reported as a network failure, never as an API error, and a network failure arises only from one. An API error occurs if and only if a reply has status 400 or more, and it carries that status and body. A successful call yields a decoded value exactly when an output was given. Every reply is classified as in `Transport.Classify`. |
| Transport.ClassifyMatchesTable | client.go:80-95 | The ordered status tests agree with the status-to-kind table. A reply fails with the table's kind, wrapping status and body, exactly when the table gives one. |
| Transport.ApiFailureTextRoundTrip | client.go:92-95 | The error text of every API failure reads back as the reply's status and body. |
| FlexibleTime.TrimQuotes | models.go:14 | The result has no double quote at either end and is no longer than the input. |
| FlexibleTime.TrimQuotesOfPadded | models.go:14 | Trimming removes any number of leading and trailing quotes, not just one pair. A quote-free core comes back unchanged. |
| FlexibleTime.TrimQuotesIdempotent | models.go:14 | Trimming twice equals trimming once. |
| FlexibleTime.FirstParse | models.go:29-34 | Returns the first layout under which the text parses, with the parsed instant; every earlier layout fails. None means that every layout fails. |
| FlexibleTime.UnmarshalJSON | models.go:13-37 | Never returns an error. Null or empty trimmed input leaves the stored time unchanged, and so does input that no layout parses. Any new stored time is the parse of the trimmed text under one of the seven layouts. |
| FlexibleTime.UnmarshalTakesFirstLayout | models.go:19-34 | If layout i is the first that parses, the stored time is exactly its result and no error is returned. |
| FlexibleTime.DuplicateLayoutNeverWins | models.go:20-25 | The sixth layout (RFC 3339) repeats the first, so it is never the first layout to succeed. |
| FlexibleTime.MarshalJSON | models.go:39-41 | Always emits the RFC 3339 formatting of the instant, as a quoted JSON string, whatever layout it was parsed from. |
| FlexibleTime.MarshalUnmarshalRoundTrip | models.go:13-41 | Decoding what MarshalJSON wrote gives back the same instant, if parse and format agree on RFC 3339. |
| Playback.ScanFromAsWritten | client.go:264-270 | The scan as written. It reports "no marker" if and only if fewer than six bytes remain. It finds the first marker, or slices out of range at position `len - 6` after finding none before it. |
| Playback.ScanFrom | client.go:264-270 | The scan with the bound its slice needs. It never goes out of range and returns the first marker position, or no marker when none exists. |
| Playback.AsWrittenOutcomes | client.go:264-273 | As written, "invalid_url" is reachable only for strings shorter than six bytes. Every longer string without the marker slices out of range. |
| Playback.AsWrittenAgreesWhenFound | client.go:264-270 | When a marker exists, the scan as written finds the same first position as the corrected one. |
| Playback.SixByteUrlOutOfRange | client.go:265-266 | On `abcdef` the scan as written slices out of range at 0, while the corrected scan reports no marker. |
| Playback.FilePathAfterMarker | client.go:264-274 | Returns none if and only if the text has no `/media/`. Otherwise it returns the suffix after the first occurrence. |
| Values.Show | client.go:277-280 | `%v` of a template argument: a string prints as itself, a missing entry (nil) as `<nil>`, a boolean as `true`/`false`. A number, array or object is printed by the `%v` oracle, which sees its literal. |
| Playback.Candidates | client.go:276-281 | Four candidates in fixed order. The first is the released directory followed by album, `/`, title and `.mp3`. Then come the unreleased directory with title and `.mp3`, the snippets directory with title, `/`, title and `.mp4`, and the session-edits directory with title and `.mp3`. They are pairwise distinct. |
| Playback.CandidatesDetermineRecord | client.go:277-280 | Different titles never share the unreleased candidate. Two records yield the same four candidates if and only if their titles and albums agree. |
| Playback.ProbeInOrder | client.go:283-302 | Returns the position of the first URL whose probe answers 200/206; all earlier URLs are refused. Exactly the URLs up to the hit are probed, in order. With no hit, every URL is refused and all of them are probed. |
| Playback.ProbeCandidates | client.go:276-311 | The result is always "success" or "file_not_found_but_url_provided", never an error. "success" returns the first candidate whose probe answers 200/206, with its path, URL and content type; exactly the candidate URLs up to it were probed, in order, and all earlier ones were refused. Otherwise all four URLs were probed and refused, and the result carries the reported path and its URL. |
| Playback.Resolve | client.go:256-274 | "no_file_info" if and only if `file` is missing. "invalid_url" if and only if the file text has no `/media/` (a non-string counts as empty); neither probes anything. In every other case the result is the candidate probing for the path after the first marker. The scan is the corrected one (see Findings), so a URL without the marker gives "invalid_url" rather than the source's out-of-range slice. |
| Playback.PlaySong | client.go:251-311 | Only a failed metadata fetch is an error, and it is passed through unchanged. Every fetched record gives exactly its `Playback.Resolve` result, so "no_file_info" arises if and only if the record has no `file` entry. |
| Playback.StatusTag | client.go:258-310 | Each of the four results has its own `status` string, so the string identifies the result. |
| Playback.Detail | client.go:258-310 | A verified stream has no error or note text, and each of the two failures has its own error text. |
| Playback.ThirdCandidateWins | client.go:283-298 | If only the third candidate answers 206 (first two refused), the result is the third candidate and exactly three URLs are probed. |
| Playback.StreamAudioFile | client.go:314-338 | "success" if and only if the probe answers 200/206, with `supports_range` true if and only if Accept-Ranges is non-empty and not `none`. "request_error" if and only if the probe fails. "file_not_found" if and only if 404. Otherwise "http_error" with that status. A request error carries the probe's own error detail. |
| Playback.AcceptedCandidateStreams | client.go:283-333 | For a record with a valid file URL, if any candidate answers 200/206 then resolution succeeds. The path it returns is then a ready stream for StreamAudioFile, with the same URL and content type. |
| Playback.StreamStatusTag | client.go:320-337 | Each of the four stream results has its own `status` string, so the string identifies the result. |
| Playback.StreamErrorText | client.go:320-337 | The error text is empty only for a ready stream. A request error's text is `Request failed: ` followed by the probe's error, a 404 gives `Audio file not found`, and an HTTP error's text starts with `HTTP `. |
| Playback.HttpErrorTextRoundTrip | client.go:337 | The `HTTP <status>` text reads back as the status. |
| Search.TruncDiv | client.go:470 | Go's quotient truncates toward zero. It rounds down for non-negative dividends and up for negative ones. |
| Search.Page | client.go:468-471 | Page 1 when the limit is not positive. Otherwise the offset lies within the page's range of `limit` items. For negative offsets the page is at most 1 and rounded toward zero. |
| Search.PageExamples | client.go:468-471 | Offset 20 with limit 10 gives page 3. Offset -5 gives page 1, where floor division would give 0. |
| Search.SplitJoinRoundTrip | client.go:483-492 | Splitting the joined tags at commas gives back every tag in order, provided no tag contains a comma. |
| Search.JoinTags | client.go:484-490 | The source's loop puts a comma before every tag but the first, producing the comma-joined tags. |
| Search.SearchQuery | client.go:472-492 | `search`, `page_size` and `page` are always set, and the numbers read back as limit and page. `category` is set if and only if given and non-empty. `year` if and only if positive. `tags` if and only if the list is non-empty, and its value is the tags joined by single commas in order, for any tags. When no tag contains a comma, it splits back into the tags. |
| Search.SongsQuery | client.go:159-174 | `page` is set if and only if page > 0, and likewise `page_size`. `category`, `era` and `search` are each set if and only if given and non-empty. Values read back exactly. |
| Search.CategoryQueryShape | client.go:509-511 | The category query carries `category` if and only if it is non-empty, and never `era` or `search`. |
| Search.CheckResults | client.go:181-184 | A reply is accepted if and only if it has a `results` entry. Otherwise the error is the reply's own JSON text. |
| Search.GetSongsRaw | client.go:176-184 | An accepted listing always has a `results` entry. A missing-results failure arises only from a reply below 400. |
| Search.GetSongsOutcomes | client.go:176-184 | A network error fails as such. A status of 400 or more fails with the typed or generic API error before the results check. Below 400, a decode failure is passed on, and a decoded object is accepted if and only if it has `results`; otherwise the error is its JSON text. |

## Findings

| source | as written | input that shows it | evidently intended | confidence | as-written member | corrected member |
|---|---|---|---|---|---|---|
| client.go:265-266 | The loop guard `i+6 <= len(fileStr)` lets `i` reach `len-6`, but the body slices `fileStr[i:i+7]`. | `abcdef`, or any file URL of six or more bytes without `/media/` in reach: the slice runs one past the end and panics. | Guard `i+7 <= len(fileStr)`, so that a URL without the marker yields "invalid_url". | high; not executed | Playback.ScanFromAsWritten (counterexample: Playback.SixByteUrlOutOfRange) | Playback.ScanFrom, used through Playback.FilePathAfterMarker by Playback.Resolve |

## Left out

- HTTP sending is not modelled: request building, `url.Parse`/`ResolveReference`, the User-Agent, Accept and Content-Type headers, JSON body marshalling. A reply enters the model as `Exchange` or `ProbeReply`.
- JSON decoding and the field-for-field record types of models.go (Song, Album, FileInfo, ...) are left out. Decoding is the `decode` oracle; a decoded object is a map of opaque `Value`s.
- `time.Parse` and `Time.Format` are oracles; calendar and time-zone arithmetic belong to Go's library.
- MarshalJSON: writes the formatted text between quotes without `json.Marshal`'s string escaping. The RFC 3339 text holds only digits, letters, `-`, `:`, `+` and `.`, which that escaping leaves unchanged.
- `url.QueryEscape`, `url.PathEscape` and `%v` of numbers, arrays and objects are opaque oracles. A JSON number reaches `%v` as a `float64` in Go; its formatting rules (for example `1e+21`) belong to `fmt`.
- Probes are a deterministic oracle from URL to reply: a URL answers the same way each time it is asked. Header lookup is case-insensitive in Go, so the reply carries the three header values already looked up (`""` when absent).
- `url.Values` is a map from key to one value. The source sets each key once, and the encoded parameter order is not modelled.
- Playback.ScanFromAsWritten: a Go string is modelled as its bytes, one `char` per byte, so its "fewer than six remain" bound and its slice positions are byte counts. A string holding multi-byte UTF-8 must be given as its byte sequence.
- Playback.Resolve: uses the corrected `/media/` scan. The out-of-range panic of the scan as written is carried only by `Playback.ScanFromAsWritten` and `Playback.AsWrittenOutcomes`, not by `Playback.Resolve` or `Playback.PlaySong`.
- Page: does not model 64-bit wrap-around of `offset/limit + 1` (reachable only at offset `MaxInt64` with limit 1); integers are unbounded.
- The result mapping of `SearchSongs` is left out: it copies `Results`/`Count`, sets `QueryTime` to "0ms" and the category pointer, and contains no decision.
- `GetSongs`: the re-encoding of the accepted map and its decoding into the typed page (client.go:186-190) are not modelled. That decoding can still fail, for example when `results` is not an array of song records. A listing that `Search.GetSongsRaw` accepts may therefore still be an error in the source.
- `DownloadFile`, `DownloadFileTo`/`writeFileAtomic`, `GetCoverArt` and `CreateZip` are left out as filesystem and byte-stream I/O. Their status check is not `Transport.Classify`: any status of 400 or more, 401, 404 and 429 included, becomes a plain `APIError` with no typed wrapper.
- `CloseIdleConnections`, context cancellation and timeouts are concurrency and OS concerns, not modelled.
- The other getters are left out. Each builds a path, sends it through the request helper modelled by `Transport.Do`, and returns the decoded value or a field of it:
  - `GetArtist`, `GetAlbum`, `GetSong`, `GetEra` and `GetJuiceWRLDSong` put a `%d` id into the path.
  - `GetStats` decodes one record.
  - `GetArtists`, `GetAlbums` and `GetEras` return the decoded `results` field.
  - `GetCategories` returns the `categories` field.
  - `GetAPIOverview` wraps the decoded reply in a fixed map with a title, a description and the wrapper version (client.go:118-123).
  - `GetJuiceWRLDSongs` sets `page` and `page_size` only when positive (client.go:233-239), the pattern `Search.SongsQuery` models.
  - `BrowseFiles` sets `path` and `search` only when non-empty (client.go:341-347).
  - `GetFileInfo` always sets `path` (client.go:354).
  - `StartZipJob` returns the decoded `job_id`.
  - `GetZipJobStatus` puts the escaped job id into the path.
  - `CancelZipJob` does the same and turns a successful call into `true` (client.go:458-464).
- The comma-joined tags have no leading or trailing comma only when the first and last tags are non-empty. The model states the exact content instead, through the split round trip.

=== FILE: decimal.dfy ===
/** Decimal rendering of integers, as `fmt`'s `%d` verb writes them, and the
    reading that undoes it. */
module Decimal {
  import opened Wrappers

  predicate IsDigit(c: char) {
    '0' <= c <= '9'
  }

  predicate AllDigits(s: string) {
    forall i :: 0 <= i < |s| ==> IsDigit(s[i])
  }

  function DigitChar(d: nat): (c: char)
    requires d < 10
    ensures IsDigit(c)
    ensures c as int - '0' as int == d
  {
    ('0' as int + d) as char
  }

  /** The digits of `n`, most significant first, without leading zeros. */
  function NatDigits(n: nat): (s: string)
    ensures |s| > 0
    ensures AllDigits(s)
    ensures s[0] == '0' ==> n == 0
    decreases n
  {
    if n < 10 then [DigitChar(n)] else NatDigits(n / 10) + [DigitChar(n % 10)]
  }

  /** `%d`: a minus sign for negative numbers, then the digits. */
  function FormatInt(n: int): (s: string)
    ensures |s| > 0
    ensures n < 0 <==> s[0] == '-'
    ensures forall i :: 0 <= i < |s| ==> s[i] == '-' || IsDigit(s[i])
  {
    if n < 0 then "-" + NatDigits(-n) else NatDigits(n)
  }

  /** The number a digit string denotes. */
  function DigitsValue(s: string): nat
    requires AllDigits(s)
  {
    if |s| == 0 then 0 else DigitsValue(s[..|s| - 1]) * 10 + (s[|s| - 1] as int - '0' as int)
  }

  /** Reads an optionally signed decimal number; anything else is refused. */
  function ParseInt(s: string): (r: Option<int>)
    ensures r.Some? ==> |s| > 0
  {
    if |s| > 0 && s[0] == '-' then
      if |s| > 1 && AllDigits(s[1..]) then Some(-(DigitsValue(s[1..]) as int)) else None
    else if |s| > 0 && AllDigits(s) then Some(DigitsValue(s))
    else None
  }

  lemma {:induction false} NatDigitsValue(n: nat)
    ensures DigitsValue(NatDigits(n)) == n
    decreases n
  {
    if n >= 10 {
      var s := NatDigits(n);
      assert s[..|s| - 1] == NatDigits(n / 10);
      NatDigitsValue(n / 10);
    }
  }

  /** Reading back what `%d` wrote gives the number again. */
  lemma FormatIntRoundTrip(n: int)
    ensures ParseInt(FormatInt(n)) == Some(n)
  {
    if n < 0 {
      assert FormatInt(n)[1..] == NatDigits(-n);
      NatDigitsValue(-n);
    } else {
      NatDigitsValue(n);
    }
  }
}

=== FILE: errors.dfy ===
/** The error taxonomy of errors.go: one status-and-message record and the
    four typed errors that embed it. */
module Errors {
  import opened Wrappers
  import Decimal

  /** A failure reported by the server: its HTTP status and raw body. */
  datatype APIError = APIError(statusCode: int, message: string)

  /** Which typed error wraps an `APIError`; `Generic` is the bare record. */
  datatype ErrorKind = RateLimit | NotFound | Authentication | Validation | Generic

  /** Every typed error embeds exactly one `APIError`, so its status code and
      message are those of `inner`. */
  datatype ClientError =
    | RateLimitError(inner: APIError)
    | NotFoundError(inner: APIError)
    | AuthenticationError(inner: APIError)
    | ValidationError(inner: APIError)
    | PlainAPIError(inner: APIError)

  const Prefix := "api error: "
  const Separator := " - "

  function KindOf(e: ClientError): ErrorKind {
    match e
    case RateLimitError(_) => RateLimit
    case NotFoundError(_) => NotFound
    case AuthenticationError(_) => Authentication
    case ValidationError(_) => Validation
    case PlainAPIError(_) => Generic
  }

  /** Builds the typed error of the given kind around `a`. */
  function Wrap(kind: ErrorKind, a: APIError): (e: ClientError)
    ensures e.inner == a
    ensures KindOf(e) == kind
  {
    match kind
    case RateLimit => RateLimitError(a)
    case NotFound => NotFoundError(a)
    case Authentication => AuthenticationError(a)
    case Validation => ValidationError(a)
    case Generic => PlainAPIError(a)
  }

  /** `Error()` on a possibly nil `*APIError`; a typed error answers with the
      text of its embedded record, `ErrorText(Some(e.inner))`. */
  function ErrorText(e: Option<APIError>): (r: string)
    ensures e.None? ==> r == ""
    ensures e.Some? && e.value.statusCode == 0 ==> r == e.value.message
    ensures e.Some? && e.value.statusCode != 0 ==>
              && |r| > |Prefix| + |Separator| + |e.value.message|
              && r[..|Prefix|] == Prefix
              && r[|r| - |e.value.message|..] == e.value.message
  {
    match e
    case None => ""
    case Some(a) =>
      if a.statusCode == 0 then a.message
      else Prefix + Decimal.FormatInt(a.statusCode) + Separator + a.message
  }

  /** The first position of `c` in `s`, if any. */
  function IndexOf(s: string, c: char): (r: Option<nat>)
    ensures r.Some? ==> r.value < |s| && s[r.value] == c
    ensures r.Some? ==> forall k :: 0 <= k < r.value ==> s[k] != c
    ensures r.None? ==> forall k :: 0 <= k < |s| ==> s[k] != c
  {
    if |s| == 0 then None
    else if s[0] == c then Some(0)
    else match IndexOf(s[1..], c)
      case None => None
      case Some(j) => Some(j + 1)
  }

  /** Reads a text of the form `api error: <status> - <message>` with a
      non-zero status back into its record. */
  function ParseErrorText(s: string): Option<APIError> {
    if |s| < |Prefix| || s[..|Prefix|] != Prefix then None
    else
      var t := s[|Prefix|..];
      match IndexOf(t, ' ')
      case None => None
      case Some(j) =>
        if j + |Separator| <= |t| && t[j..j + |Separator|] == Separator then
          match Decimal.ParseInt(t[..j])
          case Some(n) => if n != 0 then Some(APIError(n, t[j + |Separator|..])) else None
          case None => None
        else None
  }

  /** A non-zero status makes `Error()` lossless: status and message can be
      read back from the text. */
  lemma ErrorTextRoundTrip(a: APIError)
    requires a.statusCode != 0
    ensures ParseErrorText(ErrorText(Some(a))) == Some(a)
  {
    var f := Decimal.FormatInt(a.statusCode);
    var s := ErrorText(Some(a));
    assert s == Prefix + f + Separator + a.message;
    var t := s[|Prefix|..];
    assert t == f + Separator + a.message;
    assert t[|f|] == ' ';
    assert forall k :: 0 <= k < |f| ==> t[k] == f[k] && t[k] != ' ';
    assert IndexOf(t, ' ') == Some(|f|);
    assert t[..|f|] == f;
    assert t[|f|..|f| + |Separator|] == Separator;
    assert t[|f| + |Separator|..] == a.message;
    Decimal.FormatIntRoundTrip(a.statusCode);
  }
}

=== FILE: flexible_time.dfy ===
/** The tolerant timestamp of models.go: decoding tries a fixed list of
    layouts and never fails; encoding always writes RFC 3339. The calendar
    work of Go's `time.Parse` and `Time.Format` is left to two oracles,
    `parse(layout, text)` and `format(layout, instant)`. */
module FlexibleTime {
  import opened Wrappers

  const Quote: char := '"'

  /** Go's `time.RFC3339` and `time.RFC3339Nano` layouts. */
  const RFC3339 := "2006-01-02T15:04:05Z07:00"
  const RFC3339Nano := "2006-01-02T15:04:05.999999999Z07:00"

  /** The layouts decoding tries, in order. */
  const Layouts: seq<string> := [
    "2006-01-02T15:04:05Z07:00",
    "2006-01-02T15:04:05.999999Z07:00",
    "2006-01-02T15:04:05.999999",
    "2006-01-02T15:04:05",
    "2006-01-02",
    RFC3339,
    RFC3339Nano
  ]

  /** The JSON literal that denotes absence. */
  const NullLiteral := "null"

  /** Neither end of `s` is a double quote. */
  predicate NoEdgeQuote(s: string) {
    |s| == 0 || (s[0] != Quote && s[|s| - 1] != Quote)
  }

  /** `n` double quotes. */
  function Quotes(n: nat): (s: string)
    ensures |s| == n
    ensures forall i :: 0 <= i < n ==> s[i] == Quote
  {
    if n == 0 then "" else [Quote] + Quotes(n - 1)
  }

  /** `strings.Trim(s, "\"")`: every leading and every trailing double quote
      is removed, not just one pair. */
  function TrimQuotes(s: string): (r: string)
    ensures NoEdgeQuote(r)
    ensures |r| <= |s|
    decreases |s|
  {
    if |s| > 0 && s[0] == Quote then TrimQuotes(s[1..])
    else if |s| > 0 && s[|s| - 1] == Quote then TrimQuotes(s[..|s| - 1])
    else s
  }

  /** The outcome of decoding: the stored instant and the returned error. */
  datatype Decoded<T> = Decoded(time: T, err: Option<string>)

  /** The first layout, from position `from` of `layouts` on, under which
      `text` parses, with its position and the instant it gives. */
  function FirstParse<T>(layouts: seq<string>, from: nat, text: string,
                         parse: (string, string) -> Option<T>): (r: Option<(nat, T)>)
    requires from <= |layouts|
    ensures r.Some? ==> from <= r.value.0 < |layouts|
                        && parse(layouts[r.value.0], text) == Some(r.value.1)
    ensures r.Some? ==> forall j :: from <= j < r.value.0 ==> parse(layouts[j], text).None?
    ensures r.None? ==> forall j :: from <= j < |layouts| ==> parse(layouts[j], text).None?
    decreases |layouts| - from
  {
    if from == |layouts| then None
    else match parse(layouts[from], text)
      case Some(t) => Some((from, t))
      case None => FirstParse(layouts, from + 1, text, parse)
  }

  /** `UnmarshalJSON` on the raw bytes `data` of a receiver currently
      holding `current`. */
  function UnmarshalJSON<T>(data: string, current: T, parse: (string, string) -> Option<T>)
    : (r: Decoded<T>)
    ensures r.err.None?
    ensures var s := TrimQuotes(data);
            s == NullLiteral || s == "" ==> r.time == current
    ensures var s := TrimQuotes(data);
            s != NullLiteral && s != "" && r.time != current ==>
              exists i :: 0 <= i < |Layouts| && parse(Layouts[i], s) == Some(r.time)
    ensures var s := TrimQuotes(data);
            (forall i :: 0 <= i < |Layouts| ==> parse(Layouts[i], s).None?) ==> r.time == current
  {
    var s := TrimQuotes(data);
    if s == NullLiteral || s == "" then Decoded(current, None)
    else match FirstParse(Layouts, 0, s, parse)
      case Some((_, t)) => Decoded(t, None)
      case None => Decoded(current, None)
  }

  /** `MarshalJSON`: the instant formatted with the RFC 3339 layout, as a
      JSON string. */
  function MarshalJSON<T>(t: T, format: (string, T) -> string): (r: string)
    ensures |r| >= 2 && r[0] == Quote && r[|r| - 1] == Quote
    ensures r[1..|r| - 1] == format(RFC3339, t)
  {
    [Quote] + format(RFC3339, t) + [Quote]
  }

  /** Leading quotes make no difference to the trimmed text. */
  lemma {:induction false} TrimQuotesDropsLeading(a: nat, u: string)
    ensures TrimQuotes(Quotes(a) + u) == TrimQuotes(u)
    decreases a
  {
    if a > 0 {
      var s := Quotes(a) + u;
      assert s[0] == Quote;
      assert s[1..] == Quotes(a - 1) + u;
      TrimQuotesDropsLeading(a - 1, u);
    } else {
      assert Quotes(a) + u == u;
    }
  }

  /** Trailing quotes after a text with no quote at either end are all
      removed, and nothing else is. */
  lemma {:induction false} TrimQuotesDropsTrailing(t: string, b: nat)
    requires NoEdgeQuote(t)
    ensures TrimQuotes(t + Quotes(b)) == t
    decreases b
  {
    var s := t + Quotes(b);
    if b == 0 {
      assert s == t;
    } else {
      assert Quotes(b) == Quotes(b - 1) + [Quote];
      if |t| == 0 {
        assert s == [Quote] + Quotes(b - 1);
        assert s[1..] == t + Quotes(b - 1);
      } else {
        assert s[0] == t[0];
        assert s == (t + Quotes(b - 1)) + [Quote];
        assert s[..|s| - 1] == t + Quotes(b - 1);
      }
      TrimQuotesDropsTrailing(t, b - 1);
    }
  }

  /** Trimming removes exactly the quote padding: any text with no quote at
      either end comes back unchanged from any amount of padding. */
  lemma TrimQuotesOfPadded(a: nat, t: string, b: nat)
    requires NoEdgeQuote(t)
    ensures TrimQuotes(Quotes(a) + t + Quotes(b)) == t
  {
    assert Quotes(a) + t + Quotes(b) == Quotes(a) + (t + Quotes(b));
    TrimQuotesDropsLeading(a, t + Quotes(b));
    TrimQuotesDropsTrailing(t, b);
  }

  /** Trimming twice is trimming once. */
  lemma TrimQuotesIdempotent(s: string)
    ensures TrimQuotes(TrimQuotes(s)) == TrimQuotes(s)
  {
    var r := TrimQuotes(s);
    assert Quotes(0) + r + Quotes(0) == r;
    TrimQuotesOfPadded(0, r, 0);
  }

  /** First success wins: when layout `i` is the first under which the
      trimmed text parses, decoding stores exactly that instant. */
  lemma UnmarshalTakesFirstLayout<T>(data: string, current: T, parse: (string, string) -> Option<T>,
                                     i: nat, t: T)
    requires TrimQuotes(data) != NullLiteral && TrimQuotes(data) != ""
    requires i < |Layouts| && parse(Layouts[i], TrimQuotes(data)) == Some(t)
    requires forall j :: 0 <= j < i ==> parse(Layouts[j], TrimQuotes(data)).None?
    ensures UnmarshalJSON(data, current, parse) == Decoded(t, None)
  {
    var s := TrimQuotes(data);
    var f := FirstParse(Layouts, 0, s, parse);
    assert f.Some?;
  }

  /** The sixth layout repeats the first, so it can never be the first layout
      that succeeds. */
  lemma DuplicateLayoutNeverWins<T>(text: string, parse: (string, string) -> Option<T>)
    ensures var f := FirstParse(Layouts, 0, text, parse);
            f.Some? ==> f.value.0 != 5
  {
    assert Layouts[5] == Layouts[0];
  }

  /** What `MarshalJSON` writes decodes to the same instant, provided the
      oracles agree on the RFC 3339 layout and the formatted text is neither
      quoted, empty nor the null literal. */
  lemma MarshalUnmarshalRoundTrip<T>(t: T, current: T, format: (string, T) -> string,
                                     parse: (string, string) -> Option<T>)
    requires parse(RFC3339, format(RFC3339, t)) == Some(t)
    requires NoEdgeQuote(format(RFC3339, t))
    requires format(RFC3339, t) != "" && format(RFC3339, t) != NullLiteral
    ensures UnmarshalJSON(MarshalJSON(t, format), current, parse) == Decoded(t, None)
  {
    var f := format(RFC3339, t);
    assert MarshalJSON(t, format) == Quotes(1) + f + Quotes(1);
    TrimQuotesOfPadded(1, f, 1);
    UnmarshalTakesFirstLayout(MarshalJSON(t, format), current, parse, 0, t);
  }
}

=== FILE: playback.dfy ===
/** Playback URL resolution (`PlayJuiceWRLDSong`) and the single-file stream
    check (`StreamAudioFile`) of client.go. Each HTTP range probe is an
    oracle from the probed URL to its reply; `url.QueryEscape` is the oracle
    `escape`; `%v` of a non-string value is the oracle `showOther`. */
module Playback {
  import opened Wrappers
  import opened Values
  import Decimal
  import Transport

  /** The path marker the reported file URL is cut at. */
  const Marker := "/media/"
  /** The download endpoint every stream URL points at. */
  const DownloadPath := "/juicewrld/files/download/?path="

  const StatusOK := 200
  const StatusPartialContent := 206

  // ----- Marker scan ------------------------------------------------------

  /** The marker starts at position `i` of `s`. */
  predicate MarkerAt(s: string, i: int) {
    0 <= i && i + |Marker| <= |s| && s[i..i + |Marker|] == Marker
  }

  /** The end of a marker scan: the marker's first position, no marker, or
      a slice that runs past the end of the string at position `at` (a
      run-time panic in the source). */
  datatype Scan = Found(index: nat) | Missing | OutOfRange(at: nat)

  /** The scan as written, from position `i`: the loop runs while
      `i + 6 <= len` but compares the seven bytes `i..i+7`. Go measures
      and slices strings in bytes, so here each `char` stands for one byte
      of the file URL. */
  function ScanFromAsWritten(s: string, i: nat): (r: Scan)
    ensures r.Missing? <==> i + 6 > |s|
    ensures r.Found? ==> i <= r.index && MarkerAt(s, r.index)
    ensures r.Found? ==> forall j :: i <= j < r.index ==> !MarkerAt(s, j)
    ensures r.OutOfRange? ==> r.at + 6 == |s| && forall j :: i <= j < r.at ==> !MarkerAt(s, j)
    decreases |s| - i
  {
    if i + 6 > |s| then Missing
    else if i + 7 > |s| then OutOfRange(i)
    else if s[i..i + 7] == Marker then Found(i)
    else ScanFromAsWritten(s, i + 1)
  }

  /** The scan with the bound the slice needs, `i + 7 <= len`. */
  function ScanFrom(s: string, i: nat): (r: Scan)
    ensures !r.OutOfRange?
    ensures r.Found? ==> i <= r.index && MarkerAt(s, r.index)
    ensures r.Found? ==> forall j :: i <= j < r.index ==> !MarkerAt(s, j)
    ensures r.Missing? ==> forall j :: i <= j ==> !MarkerAt(s, j)
    decreases |s| - i
  {
    if i + 7 > |s| then Missing
    else if s[i..i + 7] == Marker then Found(i)
    else ScanFrom(s, i + 1)
  }

  function FindMarkerAsWritten(s: string): Scan {
    ScanFromAsWritten(s, 0)
  }

  function FindMarker(s: string): Scan {
    ScanFrom(s, 0)
  }

  /** As written, the scan reports "no marker" only for strings shorter than
      six bytes; every longer string without a marker in reach ends in an
      out-of-range slice at position `len - 6`. */
  lemma AsWrittenOutcomes(s: string)
    ensures FindMarkerAsWritten(s).Missing? <==> |s| < 6
    ensures |s| >= 6 && (forall j :: !MarkerAt(s, j)) ==> FindMarkerAsWritten(s) == OutOfRange(|s| - 6)
  {
  }

  /** Where the corrected scan finds the marker, the scan as written finds
      the same position without leaving the string. */
  lemma AsWrittenAgreesWhenFound(s: string)
    requires FindMarker(s).Found?
    ensures FindMarkerAsWritten(s) == FindMarker(s)
  {
  }

  /** A six-byte file URL without the marker: the scan as written slices
      past the end where the corrected scan reports a missing marker. */
  lemma SixByteUrlOutOfRange()
    ensures FindMarkerAsWritten("abcdef") == OutOfRange(0)
    ensures FindMarker("abcdef") == Missing
  {
    assert !MarkerAt("abcdef", 0);
  }

  /** The file path reported after the first marker, if there is one. */
  function FilePathAfterMarker(fileStr: string): (r: Option<string>)
    ensures r.None? <==> forall j :: !MarkerAt(fileStr, j)
    ensures r.Some? ==> exists k :: MarkerAt(fileStr, k) && r.value == fileStr[k + |Marker|..]
                                    && forall j :: 0 <= j < k ==> !MarkerAt(fileStr, j)
  {
    match FindMarker(fileStr)
    case Found(k) => Some(fileStr[k + |Marker|..])
    case _ => None
  }

  // ----- Candidate paths and probing --------------------------------------

  const ReleasedDir := "Compilation/1. Released Discography/"
  const UnreleasedDir := "Compilation/2. Unreleased Discography/"
  const SnippetsDir := "Snippets/"
  const SessionEditsDir := "Session Edits/"

  /** The four storage layouts tried, in order: released discography (by
      album and title), unreleased discography, snippet, session edit. */
  function Candidates(title: string, album: string): (ps: seq<string>)
    ensures |ps| == 4
    ensures ReleasedDir <= ps[0]
    ensures UnreleasedDir <= ps[1]
    ensures SnippetsDir <= ps[2]
    ensures SessionEditsDir <= ps[3]
    ensures ps[0][|ReleasedDir|..] == album + "/" + title + ".mp3"
    ensures ps[1][|UnreleasedDir|..] == title + ".mp3"
    ensures ps[2][|SnippetsDir|..] == title + "/" + title + ".mp4"
    ensures ps[3][|SessionEditsDir|..] == title + ".mp3"
    ensures forall i, j :: 0 <= i < j < |ps| ==> ps[i] != ps[j]
  {
    var ps := [ReleasedDir + album + "/" + title + ".mp3",
               UnreleasedDir + title + ".mp3",
               SnippetsDir + title + "/" + title + ".mp4",
               SessionEditsDir + title + ".mp3"];
    assert ps[0][12] == '1' && ps[1][12] == '2';
    assert ps[0][0] == 'C' && ps[1][0] == 'C' && ps[2][0] == 'S' && ps[3][0] == 'S';
    assert ps[2][1] == 'n' && ps[3][1] == 'e';
    ps
  }

  /** The probed paths tell records apart: the unreleased candidate alone
      fixes the title, and the four candidates together fix both title and
      album. */
  lemma CandidatesDetermineRecord(t1: string, a1: string, t2: string, a2: string)
    ensures Candidates(t1, a1)[1] == Candidates(t2, a2)[1] ==> t1 == t2
    ensures Candidates(t1, a1) == Candidates(t2, a2) <==> t1 == t2 && a1 == a2
  {
    var p1, p2 := Candidates(t1, a1), Candidates(t2, a2);
    if p1[1] == p2[1] {
      var x1, x2 := t1 + ".mp3", t2 + ".mp3";
      assert x1 == x2;
      assert t1 == x1[..|t1|] && t2 == x2[..|t2|];
      if p1[0] == p2[0] {
        var y1, y2 := a1 + "/" + t1 + ".mp3", a2 + "/" + t2 + ".mp3";
        assert y1 == y2;
        assert a1 == y1[..|a1|] && a2 == y2[..|a2|];
      }
    }
  }

  /** The download URL for a storage path. */
  function StreamUrl(base: string, escape: string -> string, path: string): (u: string)
    ensures base + DownloadPath <= u
    ensures u[|base| + |DownloadPath|..] == escape(path)
  {
    base + DownloadPath + escape(path)
  }

  /** What a range probe got back: a transport error, or a status with the
      headers the client reads (`""` for an absent header). */
  datatype ProbeReply =
    | ProbeFailed(detail: string)
    | ProbeResponse(status: int, contentType: string, contentLength: string, acceptRanges: string)

  /** A probe finds the file when it answers 200 or 206; a transport error
      is a non-match. */
  predicate Accepts(reply: ProbeReply) {
    reply.ProbeResponse? && (reply.status == StatusOK || reply.status == StatusPartialContent)
  }

  /** The position of the first accepted URL, if any, and the URLs asked to find it. */
  datatype ProbeTrace = ProbeTrace(accepted: Option<nat>, asked: seq<string>)

  /** Probes `urls` in order, stopping at the first accepted one. */
  function ProbeInOrder(urls: seq<string>, probe: string -> ProbeReply): (r: ProbeTrace)
    ensures r.asked <= urls
    ensures r.accepted.Some? ==> r.accepted.value < |urls| && Accepts(probe(urls[r.accepted.value]))
    ensures r.accepted.Some? ==> forall j :: 0 <= j < r.accepted.value ==> !Accepts(probe(urls[j]))
    ensures r.accepted.Some? ==> |r.asked| == r.accepted.value + 1
    ensures r.accepted.None? ==> forall j :: 0 <= j < |urls| ==> !Accepts(probe(urls[j]))
    ensures r.accepted.None? ==> r.asked == urls
  {
    if |urls| == 0 then ProbeTrace(None, [])
    else if Accepts(probe(urls[0])) then ProbeTrace(Some(0), [urls[0]])
    else
      var rest := ProbeInOrder(urls[1..], probe);
      match rest.accepted
      case None => ProbeTrace(None, [urls[0]] + rest.asked)
      case Some(k) => ProbeTrace(Some(k + 1), [urls[0]] + rest.asked)
  }

  // ----- PlayJuiceWRLDSong ------------------------------------------------

  /** The structured result; the source returns it as a map whose "status"
      entry is `StatusTag`. */
  datatype Play =
    | NoFileInfo(songId: int)
    | InvalidUrl(songId: int)
    | Streamable(songId: int, streamUrl: string, filePath: string, contentType: string)
    | Unverified(songId: int, streamUrl: string, filePath: string)

  function StatusTag(p: Play): (r: string)
    ensures r == "no_file_info" <==> p.NoFileInfo?
    ensures r == "invalid_url" <==> p.InvalidUrl?
    ensures r == "success" <==> p.Streamable?
    ensures r == "file_not_found_but_url_provided" <==> p.Unverified?
  {
    match p
    case NoFileInfo(_) => "no_file_info"
    case InvalidUrl(_) => "invalid_url"
    case Streamable(_, _, _, _) => "success"
    case Unverified(_, _, _) => "file_not_found_but_url_provided"
  }

  /** The result's "error" or "note" text; a verified stream has neither. */
  function Detail(p: Play): (r: string)
    ensures r == "" <==> p.Streamable?
    ensures p.InvalidUrl? <==> r == "Invalid file URL format"
    ensures p.NoFileInfo? <==> r == "Song file information not found"
  {
    match p
    case NoFileInfo(_) => "Song file information not found"
    case InvalidUrl(_) => "Invalid file URL format"
    case Streamable(_, _, _, _) => ""
    case Unverified(_, _, _) => "File may not exist at this path, but streaming URL is provided"
  }

  /** The result together with the URLs probed to reach it, in order. */
  datatype Resolution = Resolution(play: Play, probed: seq<string>)

  /** The reported file reference as a string; the source's unchecked type
      assertion turns any non-string value into `""`. */
  function FileText(v: Value): string {
    if v.Str? then v.s else ""
  }

  /** The four candidate paths for a song record, from its `title` and
      `album` entries as `%v` prints them. */
  function SongCandidates(song: Object, showOther: Value -> string): (ps: seq<string>)
    ensures |ps| == 4
  {
    Candidates(Show(Lookup(song, "title"), showOther), Show(Lookup(song, "album"), showOther))
  }

  /** The stream URLs of the four candidates for a song record. */
  function CandidateUrls(song: Object, base: string, escape: string -> string,
                         showOther: Value -> string): (us: seq<string>)
    ensures |us| == 4
    ensures forall k :: 0 <= k < 4 ==> us[k] == StreamUrl(base, escape, SongCandidates(song, showOther)[k])
  {
    var ps := SongCandidates(song, showOther);
    seq(4, k requires 0 <= k < 4 => StreamUrl(base, escape, ps[k]))
  }

  /** Resolution once the file path is known: probe the candidates in order
      and fall back to the reported path, unverified. */
  function ProbeCandidates(songId: int, song: Object, filePath: string, base: string,
                           escape: string -> string, showOther: Value -> string,
                           probe: string -> ProbeReply): (r: Resolution)
    ensures r.play.songId == songId
    ensures r.play.Streamable? || r.play.Unverified?
    ensures r.play.Streamable? ==>
              var us := CandidateUrls(song, base, escape, showOther);
              var k := |r.probed| - 1;
              && 0 <= k < 4
              && r.probed == us[..k + 1]
              && r.play.streamUrl == us[k]
              && r.play.filePath == SongCandidates(song, showOther)[k]
              && Accepts(probe(us[k]))
              && r.play.contentType == probe(us[k]).contentType
              && forall j :: 0 <= j < k ==> !Accepts(probe(us[j]))
    ensures r.play.Unverified? ==>
              var us := CandidateUrls(song, base, escape, showOther);
              && r.probed == us
              && (forall j :: 0 <= j < 4 ==> !Accepts(probe(us[j])))
              && r.play.filePath == filePath
              && r.play.streamUrl == StreamUrl(base, escape, filePath)
  {
    var ps := SongCandidates(song, showOther);
    var urls := CandidateUrls(song, base, escape, showOther);
    var search := ProbeInOrder(urls, probe);
    match search.accepted
    case Some(k) =>
      Resolution(Streamable(songId, urls[k], ps[k], probe(urls[k]).contentType), search.asked)
    case None =>
      Resolution(Unverified(songId, StreamUrl(base, escape, filePath), filePath), search.asked)
  }

  /** Resolution for a fetched song record. */
  function Resolve(songId: int, song: Object, base: string, escape: string -> string,
                   showOther: Value -> string, probe: string -> ProbeReply): (r: Resolution)
    ensures r.play.songId == songId
    ensures r.play.NoFileInfo? <==> "file" !in song
    ensures r.play.InvalidUrl? <==>
              "file" in song && forall j :: !MarkerAt(FileText(song["file"]), j)
    ensures r.play.NoFileInfo? || r.play.InvalidUrl? ==> r.probed == []
    ensures r.play.Streamable? || r.play.Unverified? ==>
              && "file" in song
              && var path := FilePathAfterMarker(FileText(song["file"]));
                 path.Some? && r == ProbeCandidates(songId, song, path.value, base, escape, showOther, probe)
  {
    if "file" !in song then Resolution(NoFileInfo(songId), [])
    else
      var fileStr := FileText(song["file"]);
      if fileStr == "" then Resolution(InvalidUrl(songId), [])
      else match FilePathAfterMarker(fileStr)
        case None => Resolution(InvalidUrl(songId), [])
        case Some(filePath) => ProbeCandidates(songId, song, filePath, base, escape, showOther, probe)
  }

  /** `PlayJuiceWRLDSong`: only a failed metadata fetch is an error; every
      fetched record yields a structured result. */
  function PlaySong(songId: int, fetched: Result<Object, Transport.CallError>, base: string,
                    escape: string -> string, showOther: Value -> string,
                    probe: string -> ProbeReply): (r: Result<Resolution, Transport.CallError>)
    ensures fetched.Failure? <==> r.Failure?
    ensures fetched.Failure? ==> r.error == fetched.error
    ensures r.Success? ==> r.value.play.songId == songId
    ensures fetched.Success? ==> r.value == Resolve(songId, fetched.value, base, escape, showOther, probe)
    ensures r.Success? ==> (r.value.play.NoFileInfo? <==> "file" !in fetched.value)
  {
    match fetched
    case Failure(e) => Failure(e)
    case Success(song) => Success(Resolve(songId, song, base, escape, showOther, probe))
  }

  /** With the first two candidates refused and the third answering 206,
      resolution returns the third candidate and never probes the fourth. */
  lemma ThirdCandidateWins(songId: int, song: Object, base: string, escape: string -> string,
                           showOther: Value -> string, probe: string -> ProbeReply)
    requires "file" in song && FilePathAfterMarker(FileText(song["file"])).Some?
    requires var us := CandidateUrls(song, base, escape, showOther);
             !Accepts(probe(us[0])) && !Accepts(probe(us[1]))
             && probe(us[2]).ProbeResponse? && probe(us[2]).status == StatusPartialContent
    ensures var us := CandidateUrls(song, base, escape, showOther);
            var r := Resolve(songId, song, base, escape, showOther, probe);
            && r.play.Streamable?
            && r.play.streamUrl == us[2]
            && r.probed == us[..3]
  {
    var us := CandidateUrls(song, base, escape, showOther);
    var r := Resolve(songId, song, base, escape, showOther, probe);
    assert Accepts(probe(us[2]));
    assert !r.play.NoFileInfo? && !r.play.InvalidUrl?;
  }

  // ----- StreamAudioFile --------------------------------------------------

  /** The result of checking one file; the source returns it as a map whose
      "status" entry is `StreamStatusTag`. */
  datatype Stream =
    | StreamReady(streamUrl: string, filePath: string, contentType: string,
                  contentLength: string, supportsRange: bool)
    | RequestError(filePath: string, detail: string)
    | FileNotFound(filePath: string)
    | HttpError(filePath: string, status: int)

  function StreamStatusTag(s: Stream): (r: string)
    ensures r == "success" <==> s.StreamReady?
    ensures r == "request_error" <==> s.RequestError?
    ensures r == "file_not_found" <==> s.FileNotFound?
    ensures r == "http_error" <==> s.HttpError?
  {
    match s
    case StreamReady(_, _, _, _, _) => "success"
    case RequestError(_, _) => "request_error"
    case FileNotFound(_) => "file_not_found"
    case HttpError(_, _) => "http_error"
  }

  const RequestFailedPrefix := "Request failed: "
  const HttpPrefix := "HTTP "

  /** The result's "error" text; a ready stream has none. */
  function StreamErrorText(s: Stream): (r: string)
    ensures r == "" <==> s.StreamReady?
    ensures s.RequestError? ==> RequestFailedPrefix <= r && r[|RequestFailedPrefix|..] == s.detail
    ensures s.FileNotFound? ==> r == "Audio file not found"
    ensures s.HttpError? ==> HttpPrefix <= r
  {
    match s
    case StreamReady(_, _, _, _, _) => ""
    case RequestError(_, d) => RequestFailedPrefix + d
    case FileNotFound(_) => "Audio file not found"
    case HttpError(_, status) => HttpPrefix + Decimal.FormatInt(status)
  }

  /** A server accepts range requests unless its `Accept-Ranges` header is
      absent or says `none`. */
  predicate SupportsRange(acceptRanges: string) {
    acceptRanges != "" && acceptRanges != "none"
  }

  /** `StreamAudioFile`: one probe of the file's download URL, classified. */
  function StreamAudioFile(filePath: string, base: string, escape: string -> string,
                           probe: string -> ProbeReply): (r: Stream)
    ensures r.filePath == filePath
    ensures r.StreamReady? <==> Accepts(probe(StreamUrl(base, escape, filePath)))
    ensures r.RequestError? <==> probe(StreamUrl(base, escape, filePath)).ProbeFailed?
    ensures r.RequestError? ==> r.detail == probe(StreamUrl(base, escape, filePath)).detail
    ensures r.FileNotFound? <==> probe(StreamUrl(base, escape, filePath)).ProbeResponse?
                                 && probe(StreamUrl(base, escape, filePath)).status == Transport.StatusNotFound
    ensures r.HttpError? ==> r.status == probe(StreamUrl(base, escape, filePath)).status
                             && r.status !in {StatusOK, StatusPartialContent, Transport.StatusNotFound}
    ensures r.StreamReady? ==>
              var reply := probe(StreamUrl(base, escape, filePath));
              && r.streamUrl == StreamUrl(base, escape, filePath)
              && r.contentType == reply.contentType
              && r.contentLength == reply.contentLength
              && (r.supportsRange <==> reply.acceptRanges != "" && reply.acceptRanges != "none")
  {
    var url := StreamUrl(base, escape, filePath);
    match probe(url)
    case ProbeFailed(d) => RequestError(filePath, d)
    case ProbeResponse(status, contentType, contentLength, acceptRanges) =>
      if status == StatusOK || status == StatusPartialContent then
        StreamReady(url, filePath, contentType, contentLength, SupportsRange(acceptRanges))
      else if status == Transport.StatusNotFound then FileNotFound(filePath)
      else HttpError(filePath, status)
  }

  /** When any candidate of a record with a valid file URL answers 200 or
      206, resolution succeeds, and the path it settles on is a ready stream
      for the stream check too, under the same URL and content type. */
  lemma AcceptedCandidateStreams(songId: int, song: Object, base: string, escape: string -> string,
                                 showOther: Value -> string, probe: string -> ProbeReply, k: nat)
    requires "file" in song && FilePathAfterMarker(FileText(song["file"])).Some?
    requires k < 4 && Accepts(probe(CandidateUrls(song, base, escape, showOther)[k]))
    ensures var p := Resolve(songId, song, base, escape, showOther, probe).play;
            && p.Streamable?
            && var st := StreamAudioFile(p.filePath, base, escape, probe);
               st.StreamReady? && st.streamUrl == p.streamUrl && st.contentType == p.contentType
  {
  }

  /** The "HTTP <status>" text of a stream check reads back as the status. */
  lemma HttpErrorTextRoundTrip(filePath: string, status: int)
    ensures var t := StreamErrorText(HttpError(filePath, status));
            t[..|HttpPrefix|] == HttpPrefix && Decimal.ParseInt(t[|HttpPrefix|..]) == Some(status)
  {
    var t := StreamErrorText(HttpError(filePath, status));
    assert t[|HttpPrefix|..] == Decimal.FormatInt(status);
    Decimal.FormatIntRoundTrip(status);
  }
}

=== FILE: search.dfy ===
/** Query construction for song listing and search (`GetSongs`,
    `GetSongsByCategory`, `SearchSongs` in client.go). A query is modelled
    as a map from key to its single value: the source only ever sets one
    value per key. */
module Search {
  import opened Wrappers
  import opened Values
  import Decimal
  import Errors
  import Transport

  type Query = map<string, string>

  // ----- Paging arithmetic -------------------------------------------------

  /** Go's integer division for a positive divisor: the quotient truncated
      toward zero (Dafny's own `/` rounds toward negative infinity here). */
  function TruncDiv(a: int, b: int): (q: int)
    requires b > 0
    ensures a >= 0 ==> q >= 0 && q * b <= a < q * b + b
    ensures a < 0 ==> q <= 0 && q * b - b < a <= q * b
  {
    if a >= 0 then a / b else -((-a) / b)
  }

  /** The 1-based page holding `offset` for pages of `limit` items, or 1 when
      `limit` is not positive. */
  function Page(offset: int, limit: int): (p: int)
    ensures limit <= 0 ==> p == 1
    ensures limit > 0 && offset >= 0 ==> p >= 1 && (p - 1) * limit <= offset < p * limit
    ensures limit > 0 && offset < 0 ==> p <= 1 && (p - 2) * limit < offset <= (p - 1) * limit
  {
    if limit > 0 then TruncDiv(offset, limit) + 1 else 1
  }

  /** Offset 20 with limit 10 is page 3. For a negative offset truncation
      matters: offset -5 is page 1, where rounding down would give page 0. */
  lemma PageExamples()
    ensures Page(20, 10) == 3
    ensures Page(-5, 10) == 1 && (-5) / 10 + 1 == 0
    ensures Page(7, 0) == 1
  {
  }

  // ----- Tag joining ---------------------------------------------------------

  const Comma: char := ','

  /** The tags separated by single commas, in order. */
  function Join(tags: seq<string>): string {
    if |tags| == 0 then ""
    else if |tags| == 1 then tags[0]
    else Join(tags[..|tags| - 1]) + [Comma] + tags[|tags| - 1]
  }

  /** Splits a text at every comma; the inverse of `Join` for tags that hold
      no comma. */
  function Split(s: string): (parts: seq<string>)
    ensures |parts| >= 1
    decreases |s|
  {
    if |s| == 0 then [""]
    else if s[|s| - 1] == Comma then Split(s[..|s| - 1]) + [""]
    else
      var init := Split(s[..|s| - 1]);
      init[..|init| - 1] + [init[|init| - 1] + [s[|s| - 1]]]
  }

  predicate NoComma(s: string) {
    forall i :: 0 <= i < |s| ==> s[i] != Comma
  }

  lemma {:induction false} SplitNoComma(s: string)
    requires NoComma(s)
    ensures Split(s) == [s]
    decreases |s|
  {
    if |s| > 0 {
      SplitNoComma(s[..|s| - 1]);
      assert s[..|s| - 1] + [s[|s| - 1]] == s;
    }
  }

  lemma {:induction false} SplitAfterComma(x: string, y: string)
    requires NoComma(y)
    ensures Split(x + [Comma] + y) == Split(x) + [y]
    decreases |y|
  {
    var s := x + [Comma] + y;
    if |y| == 0 {
      assert s[..|s| - 1] == x;
    } else {
      var y' := y[..|y| - 1];
      assert s[..|s| - 1] == x + [Comma] + y';
      SplitAfterComma(x, y');
      assert y' + [y[|y| - 1]] == y;
    }
  }

  /** Splitting what `Join` wrote gives back the tags, in order, as long as
      no tag holds a comma. */
  lemma {:induction false} SplitJoinRoundTrip(tags: seq<string>)
    requires |tags| > 0
    requires forall i :: 0 <= i < |tags| ==> NoComma(tags[i])
    ensures Split(Join(tags)) == tags
    decreases |tags|
  {
    if |tags| == 1 {
      SplitNoComma(tags[0]);
    } else {
      var init := tags[..|tags| - 1];
      SplitJoinRoundTrip(init);
      SplitAfterComma(Join(init), tags[|tags| - 1]);
      assert init + [tags[|tags| - 1]] == tags;
    }
  }

  lemma SplitJoinIfCommaFree(tags: seq<string>)
    requires |tags| > 0
    ensures (forall i :: 0 <= i < |tags| ==> NoComma(tags[i])) ==> Split(Join(tags)) == tags
  {
    if forall i :: 0 <= i < |tags| ==> NoComma(tags[i]) {
      SplitJoinRoundTrip(tags);
    }
  }

  /** The source's loop: a comma before every tag but the first. */
  method JoinTags(tags: seq<string>) returns (joined: string)
    ensures joined == Join(tags)
  {
    joined := "";
    var i := 0;
    while i < |tags|
      invariant 0 <= i <= |tags|
      invariant joined == Join(tags[..i])
    {
      if i > 0 {
        joined := joined + [Comma];
      }
      joined := joined + tags[i];
      assert tags[..i + 1][..i] == tags[..i];
      i := i + 1;
    }
    assert tags[..|tags|] == tags;
  }

  // ----- Query construction -----------------------------------------------

  /** An optional filter is sent only when given and non-empty. */
  predicate Given(filter: Option<string>) {
    filter.Some? && filter.value != ""
  }

  /** The query `SearchSongs` sends. */
  function SearchQuery(query: string, category: Option<string>, year: Option<int>,
                       tags: seq<string>, limit: int, offset: int): (q: Query)
    ensures q.Keys <= {"search", "page_size", "page", "category", "year", "tags"}
    ensures "search" in q && q["search"] == query
    ensures "page_size" in q && Decimal.ParseInt(q["page_size"]) == Some(limit)
    ensures "page" in q && Decimal.ParseInt(q["page"]) == Some(Page(offset, limit))
    ensures "category" in q <==> Given(category)
    ensures "category" in q ==> q["category"] == category.value
    ensures "year" in q <==> year.Some? && year.value > 0
    ensures "year" in q ==> Decimal.ParseInt(q["year"]) == Some(year.value)
    ensures "tags" in q <==> |tags| > 0
    ensures "tags" in q ==> q["tags"] == Join(tags)
    ensures "tags" in q && (forall i :: 0 <= i < |tags| ==> NoComma(tags[i])) ==>
              Split(q["tags"]) == tags
  {
    Decimal.FormatIntRoundTrip(limit);
    Decimal.FormatIntRoundTrip(Page(offset, limit));
    var q0 := map["search" := query, "page_size" := Decimal.FormatInt(limit),
                  "page" := Decimal.FormatInt(Page(offset, limit))];
    var q1 := if Given(category) then q0["category" := category.value] else q0;
    var q2 := if year.Some? && year.value > 0
              then (Decimal.FormatIntRoundTrip(year.value); q1["year" := Decimal.FormatInt(year.value)])
              else q1;
    if |tags| > 0 then
      SplitJoinIfCommaFree(tags);
      q2["tags" := Join(tags)]
    else q2
  }

  /** The query `GetSongs` sends: paging only when positive, filters only
      when given and non-empty. */
  function SongsQuery(page: int, pageSize: int, category: Option<string>, era: Option<string>,
                      search: Option<string>): (q: Query)
    ensures q.Keys <= {"page", "page_size", "category", "era", "search"}
    ensures "page" in q <==> page > 0
    ensures "page" in q ==> Decimal.ParseInt(q["page"]) == Some(page)
    ensures "page_size" in q <==> pageSize > 0
    ensures "page_size" in q ==> Decimal.ParseInt(q["page_size"]) == Some(pageSize)
    ensures "category" in q <==> Given(category)
    ensures "category" in q ==> q["category"] == category.value
    ensures "era" in q <==> Given(era)
    ensures "era" in q ==> q["era"] == era.value
    ensures "search" in q <==> Given(search)
    ensures "search" in q ==> q["search"] == search.value
  {
    Decimal.FormatIntRoundTrip(page);
    Decimal.FormatIntRoundTrip(pageSize);
    var q0: Query := map[];
    var q1 := if page > 0 then q0["page" := Decimal.FormatInt(page)] else q0;
    var q2 := if pageSize > 0 then q1["page_size" := Decimal.FormatInt(pageSize)] else q1;
    var q3 := if Given(category) then q2["category" := category.value] else q2;
    var q4 := if Given(era) then q3["era" := era.value] else q3;
    if Given(search) then q4["search" := search.value] else q4
  }

  /** `GetSongsByCategory` sends the `GetSongs` query with only the category
      filter, which an empty category drops. */
  lemma CategoryQueryShape(page: int, pageSize: int, category: string)
    ensures var q := SongsQuery(page, pageSize, Some(category), None, None);
            && ("category" in q <==> category != "")
            && "era" !in q && "search" !in q
  {
  }

  /** `GetSongs` accepts a decoded reply only when it has a "results" entry;
      otherwise the reply's own JSON text, written by `encode`, is the error. */
  function CheckResults(raw: Object, encode: Object -> string): (r: Result<Object, string>)
    ensures r.Success? <==> "results" in raw
    ensures r.Success? ==> r.value == raw
    ensures r.Failure? ==> r.error == encode(raw)
  {
    if "results" in raw then Success(raw) else Failure(encode(raw))
  }

  /** Why `GetSongs` failed: the request helper's own failure, or a reply
      without a "results" entry, reported by its JSON text. */
  datatype SongsFailure = Fetch(cause: Transport.CallError) | NoResults(text: string)

  /** The listing step of `GetSongs`: the exchange goes through the request
      helper with a decoder into a generic object, then the object must
      carry "results". */
  function GetSongsRaw(ex: Transport.Exchange, decode: string -> Result<Object, string>,
                       encode: Object -> string): (r: Result<Object, SongsFailure>)
    ensures r.Success? ==> "results" in r.value
    ensures r.Failure? && r.error.NoResults? ==> ex.Reply? && ex.status < 400
  {
    match Transport.Do(ex, Some(decode))
    case Failure(f) => Failure(Fetch(f))
    case Success(None) => assert false; Failure(NoResults(""))
    case Success(Some(raw)) =>
      match CheckResults(raw, encode)
      case Success(page) => Success(page)
      case Failure(text) => Failure(NoResults(text))
  }

  /** The helper's checks come first: statuses of 400 or more fail with the
      typed or generic API error before the "results" check is reached,
      and a decoded reply is accepted exactly when it has "results",
      otherwise failing with its own JSON text. */
  lemma GetSongsOutcomes(ex: Transport.Exchange, decode: string -> Result<Object, string>,
                         encode: Object -> string)
    ensures ex.NetworkError? ==> GetSongsRaw(ex, decode, encode) == Failure(Fetch(Transport.Network(ex.detail)))
    ensures ex.Reply? && ex.status >= 400 ==>
              var k := Transport.KindForStatus(ex.status);
              k.Some? && GetSongsRaw(ex, decode, encode)
                         == Failure(Fetch(Transport.Api(Errors.Wrap(k.value, Errors.APIError(ex.status, ex.body)))))
    ensures ex.Reply? && ex.status < 400 ==>
              match decode(ex.body)
              case Failure(d) => GetSongsRaw(ex, decode, encode) == Failure(Fetch(Transport.Decode(d)))
              case Success(raw) =>
                if "results" in raw then GetSongsRaw(ex, decode, encode) == Success(raw)
                else GetSongsRaw(ex, decode, encode) == Failure(NoResults(encode(raw)))
  {
  }
}

=== FILE: transport.dfy ===
/** The response handling of the client's single request helper
    (`do` in client.go): one HTTP exchange becomes a decoded value, a
    discarded body, or a failure. */
module Transport {
  import opened Wrappers
  import opened Errors

  const StatusUnauthorized := 401
  const StatusNotFound := 404
  const StatusTooManyRequests := 429

  /** What the network gave back: a transport error or a status and body. */
  datatype Exchange = NetworkError(detail: string) | Reply(status: int, body: string)

  /** Why a call failed. Server statuses land in the `Api` taxonomy; network
      and decoding failures stay distinct from it. */
  datatype CallError = Api(err: ClientError) | Network(detail: string) | Decode(detail: string)

  /** The statuses that have a typed error of their own. */
  const TypedStatuses: map<int, ErrorKind> :=
    map[StatusTooManyRequests := RateLimit, StatusNotFound := NotFound,
        StatusUnauthorized := Authentication]

  /** The taxonomy as a table, independent of the order in which the helper
      tests the statuses: `None` means the status is not an API failure. */
  function KindForStatus(status: int): Option<ErrorKind> {
    if status in TypedStatuses then Some(TypedStatuses[status])
    else if status >= 400 then Some(Generic)
    else None
  }

  /** Maps a reply's status and body to the call's outcome. `target` is the
      caller's output value: `None` when the caller wants nothing back,
      otherwise the JSON decoder into that value. On success the result holds
      `None` for a discarded body and `Some(v)` for a decoded one. */
  function Classify<T>(status: int, body: string, target: Option<string -> Result<T, string>>)
    : (r: Result<Option<T>, CallError>)
    ensures r.Failure? && r.error.Api? <==> status >= 400
    ensures r.Failure? && r.error.Api? ==> r.error.err.inner == APIError(status, body)
    ensures status == StatusTooManyRequests <==> r.Failure? && r.error.Api? && r.error.err.RateLimitError?
    ensures status == StatusNotFound <==> r.Failure? && r.error.Api? && r.error.err.NotFoundError?
    ensures status == StatusUnauthorized <==> r.Failure? && r.error.Api? && r.error.err.AuthenticationError?
    ensures r.Failure? && r.error.Api? ==> !r.error.err.ValidationError?
    ensures status < 400 && target.None? ==> r == Success(None)
    ensures status < 400 && target.Some? ==>
              match target.value(body)
              case Success(v) => r == Success(Some(v))
              case Failure(d) => r == Failure(Decode(d))
  {
    if status == StatusTooManyRequests then Failure(Api(RateLimitError(APIError(status, body))))
    else if status == StatusNotFound then Failure(Api(NotFoundError(APIError(status, body))))
    else if status == StatusUnauthorized then Failure(Api(AuthenticationError(APIError(status, body))))
    else if status >= 400 then Failure(Api(PlainAPIError(APIError(status, body))))
    else match target
      case None => Success(None)
      case Some(decode) =>
        match decode(body)
        case Success(v) => Success(Some(v))
        case Failure(d) => Failure(Decode(d))
  }

  /** The whole response path of the helper: a network error is reported
      as such, a reply is classified. */
  function Do<T>(ex: Exchange, target: Option<string -> Result<T, string>>): (r: Result<Option<T>, CallError>)
    ensures ex.NetworkError? ==> r == Failure(Network(ex.detail))
    ensures r.Failure? && r.error.Network? ==> ex.NetworkError?
    ensures r.Failure? && r.error.Api? <==> ex.Reply? && ex.status >= 400
    ensures r.Failure? && r.error.Api? ==> r.error.err.inner == APIError(ex.status, ex.body)
    ensures ex.Reply? && ex.status < 400 && target.None? ==> r == Success(None)
    ensures r.Success? ==> (r.value.Some? <==> target.Some?)
    ensures ex.Reply? ==> r == Classify(ex.status, ex.body, target)
  {
    match ex
    case NetworkError(d) => Failure(Network(d))
    case Reply(status, body) => Classify(status, body, target)
  }

  /** The ordered tests of the helper agree with the table: a reply fails
      with an API error exactly when the table gives a kind, and the error is
      of that kind, carrying the status and the raw body. */
  lemma ClassifyMatchesTable<T>(status: int, body: string, target: Option<string -> Result<T, string>>)
    ensures var r := Classify(status, body, target);
            match KindForStatus(status)
            case Some(k) => r == Failure(Api(Wrap(k, APIError(status, body))))
            case None => !(r.Failure? && r.error.Api?)
  {
  }

  /** The text of every API failure reads back as the reply's status and
      body, because such a status is never 0. */
  lemma ApiFailureTextRoundTrip<T>(status: int, body: string, target: Option<string -> Result<T, string>>)
    requires status >= 400
    ensures var r := Classify(status, body, target);
            r.Failure? && r.error.Api? &&
            ParseErrorText(ErrorText(Some(r.error.err.inner))) == Some(APIError(status, body))
  {
    ErrorTextRoundTrip(APIError(status, body));
  }
}

=== FILE: values.dfy ===
/** Decoded JSON values, as the client holds them in a `map[string]interface{}`. */
module Values {

  /** One decoded JSON value. A number keeps its JSON literal and an array
      or object its JSON text, so distinct values stay distinct. */
  datatype Value = Str(s: string) | Null | Bool(b: bool) | Number(literal: string) | Composite(json: string)

  /** A decoded JSON object. */
  type Object = map<string, Value>

  /** Go's map index on a `map[string]interface{}`: a missing key reads as nil. */
  function Lookup(m: Object, key: string): (v: Value)
    ensures key !in m ==> v == Null
    ensures key in m ==> v == m[key]
  {
    if key in m then m[key] else Null
  }

  /** `fmt`'s `%v` verb: a string prints as itself, nil as `<nil>`, a
      boolean as `true` or `false`. Numbers, arrays and objects are printed
      by `showOther`, which stands for fmt's own rules for a `float64`, a
      slice or a map and sees the whole value. */
  function Show(v: Value, showOther: Value -> string): (r: string)
    ensures v.Str? ==> r == v.s
    ensures v.Null? ==> r == "<nil>"
    ensures v.Bool? ==> (r == "true" <==> v.b) && (r == "false" <==> !v.b)
    ensures v.Number? || v.Composite? ==> r == showOther(v)
  {
    match v
    case Str(s) => s
    case Null => "<nil>"
    case Bool(b) => if b then "true" else "false"
    case _ => showOther(v)
  }
}

=== FILE: wrappers.dfy ===
/** Option and Result, shared by every module of the model. */
module Wrappers {

  /** A value that may be absent (a Go nil pointer or a missing map key). */
  datatype Option<+T> = None | Some(value: T)

  /** A value or the error that replaced it (Go's `(T, error)` pair). */
  datatype Result<+R, +E> = Success(value: R) | Failure(error: E)
}
